=== FILE: README.md ===
# Fresh middleware chain and test utilities, in Dafny

This project models the core of Fresh's request pipeline and its test utilities.

**The middleware runner.** `runMiddlewares` runs a per-request `Context` through a list of middlewares. Each middleware either answers, throws, or calls `ctx.next()` to hand over to the next entry and then acts on what comes back. An entry is either a middleware or a lazy factory that yields one. The runner module is not part of this model. Its behaviour is the one fixed by the cases in `packages/fresh/src/middlewares/mod_test.ts`:

- a mutation made after `next()` returns does not reach the response already built;
- every middleware runs once per request;
- several delegating middlewares stack in list order;
- an error thrown at the bottom passes through every enclosing `catch`;
- a lazy factory is called once over all requests.

**The test utilities.**

- `serveMiddleware`: the Context built for every request, with its defaults and its 404 fallback.
- `MockBuildCache`.
- `createFakeFs`, the in-memory file-system adapter.
- `usingEnv`, a disposable guard that sets an environment variable and restores it.
- `prettyDom`, the indented DOM printer.

**How the source is represented.**

- Middlewares are closures in the source. Here they are drawn from a small language (`Middlewares.Handler`) with one constructor per shape the tests use.
- The runner is a pure function over the entry list. It returns the outcome, the final state, the entry list with resolved lazy slots written back, the number of factory calls, the indexes of the invoked entries, and the `catch` blocks that fired.
- A lazy slot is resolved when the cursor reaches it. Threading the returned list into the next request models the single initialisation across requests.
- JavaScript's coercions are written out where the tests depend on them:
  - a missing `text` plus `"B"` is `"undefinedB"`;
  - `String(undefined)` is `"undefined"`;
  - `??` treats both `undefined` and `null` as absent.

Modules:

- `Js`: JavaScript values and coercions.
- `Middlewares`: the runner.
- `MiddlewareProps`: the properties of the runner and the test cases.
- `TestServer`: `serveMiddleware` and `MockBuildCache`.
- `FakeFs`: the fake file system.
- `EnvGuard`: `usingEnv`.
- `PrettyDom`: the DOM printer.

## Model

| member | source | states |
|---|---|---|
| Middlewares.Run | packages/fresh/src/middlewares/mod_test.ts:21-57 | Past the last entry, `next()` yields the Context's fallback and changes nothing. Otherwise the cursor only moves forward: the invoked entries are a contiguous run starting at the cursor, each invoked at most once, in list order, and the entry list keeps its length. |
| Middlewares.Before | packages/fresh/src/middlewares/mod_test.ts:60-67 | Only the counting middleware changes `count` before delegating, and it leaves the text alone. Setting the text leaves exactly the new text, whatever was there. Appending keeps the old text (or "undefined") as a prefix and adds exactly the marker after it. Middlewares that act after `next()` pass the state on untouched. |
| Middlewares.After | packages/fresh/src/middlewares/mod_test.ts:31-35 | Post-processing never changes the downstream outcome, entry list, factory calls, invoked entries or count. The state changes only for an append after a successful `next()`, which keeps the downstream text (or "undefined") as a prefix and adds exactly its marker after it. A `catch` block records exactly when the downstream failed, and it records that error under its own tag. |
| Middlewares.Terminal | packages/fresh/src/middlewares/mod_test.ts:36-218 | A non-delegating middleware fails exactly when it throws, and fails with the thrown message. Any response it builds has status 200. Answering with the text gives the text, or an empty body when it is missing. Answering with the count gives `String(count)`, which is "undefined" when the count is missing. Append-then-answer writes back the old text (or "undefined") followed by exactly its marker, leaves the count alone, and answers with that new text. Every other terminal middleware leaves the state unchanged. |
| Middlewares.AppendKeepsTextThenMarker | packages/fresh/src/middlewares/mod_test.ts:28 | `text += s` keeps the old text as a prefix and ends with `s`, with nothing in between. A missing text leaves "undefined" in front. |
| Middlewares.CountLazyResolve | packages/fresh/src/middlewares/mod_test.ts:201-207 | Writing a resolved middleware into a slot removes exactly that slot's factory, if it had one. |
| MiddlewareProps.RunResolvesEnteredSlots | packages/fresh/src/middlewares/mod_test.ts:196-243 | A traversal resolves exactly the slots it invoked and leaves every other slot unchanged. Every slot keeps its middleware. It calls exactly one factory per lazy slot it resolved. |
| MiddlewareProps.RunDelegatesUntilLast | packages/fresh/src/middlewares/mod_test.ts:22-39 | Every invoked entry except the last one called `next()`. The last one answered or threw, unless the chain ran out of entries. |
| MiddlewareProps.RunFailureIsInnermostThrow | packages/fresh/src/middlewares/mod_test.ts:137-170 | A failing traversal fails with the error its innermost middleware threw, and every `catch` that fired saw that error. A traversal that answers fires no `catch`. |
| MiddlewareProps.ThrowEscapes | packages/fresh/src/middlewares/mod_test.ts:137-193 | Conversely, a throw reached through delegating entries fails the whole chain with its error. The failure propagates up through every enclosing `next()`, and the traversal stops at the throwing entry. |
| MiddlewareProps.FailureFiresEveryEnclosingCatch | packages/fresh/src/middlewares/mod_test.ts:137-193 | Wherever the wrappers sit in the chain, a failing traversal records the error once for each catch-record-rethrow wrapper it invoked, and for no other entry, innermost first. |
| MiddlewareProps.ExhaustedChainYieldsFallback | packages/fresh/src/middlewares/mod_test.ts:42-51 | When every remaining entry delegates, the chain answers with the Context's fallback response after invoking all of them. |
| MiddlewareProps.RunDependsOnlyOnHandlers | packages/fresh/src/middlewares/mod_test.ts:209-219 | Whether a slot is still lazy or already resolved is invisible. Two lists holding the same middlewares give the same outcome, state, invoked entries and `catch` records. |
| MiddlewareProps.LazyBehavesEager | packages/fresh/src/middlewares/mod_test.ts:201-207 | A lazy entry behaves as the middleware its factory yields, placed eagerly at the same position. |
| MiddlewareProps.SecondRequestCallsNoFactory | packages/fresh/src/middlewares/mod_test.ts:239-242 | A second request over the entry list the first one left behind calls no factory. It answers as the first did and leaves the list unchanged. |
| MiddlewareProps.Requests | packages/fresh/src/middlewares/mod_test.ts:235-242 | Over any number of requests sharing one entry list, every request answers as the first did. Factory calls plus the remaining lazy slots always equal the lazy slots at the start, so each factory is called at most once. |
| MiddlewareProps.DelegationUnwinds | packages/fresh/src/middlewares/mod_test.ts:143-149 | A delegating entry's traversal has the outcome of the rest of the chain. Its state and `catch` records are the rest of the chain's, after the entry's own post-processing. It invokes this entry, then the rest. |
| MiddlewareProps.SetTextForgetsIncomingText | packages/fresh/src/middlewares/mod_test.ts:209-213 | A middleware that sets the text overwrites whatever came in: the traversal from it is the same for every incoming text. |
| MiddlewareProps.AppendersConcatenate | packages/fresh/src/middlewares/mod_test.ts:90-134 | Appending middlewares followed by one that answers with the text answer with the starting text followed by every marker, in list order. |
| MiddlewareProps.PostNextAppendInvisible | packages/fresh/src/middlewares/mod_test.ts:31-35 | Appending after `next()` returns passes the downstream response through unchanged. |
| MiddlewareProps.BumpTimesFromMissing | packages/fresh/src/middlewares/mod_test.ts:60-67 | Starting from no count, `m` counters leave `m - 1`. Starting from `n`, they leave `n + m`. |
| MiddlewareProps.CountersBumpOnceEach | packages/fresh/src/middlewares/mod_test.ts:59-88 | `m` counting middlewares followed by one that answers with the count answer with the count bumped exactly once per counter. Starting from no count, that is `m - 1`. |
| MiddlewareProps.CatchersObserveInnermostFirst | packages/fresh/src/middlewares/mod_test.ts:142-170 | An error thrown under a run of catch-record-rethrow wrappers escapes the chain unchanged. Every wrapper's `catch` saw that error, innermost wrapper first. |
| MiddlewareProps.PostNextAppendChain | packages/fresh/src/middlewares/mod_test.ts:21-57 | The first test's chain answers "AB". The state ends as "ABC". |
| MiddlewareProps.CounterChainAnswersZero | packages/fresh/src/middlewares/mod_test.ts:80-87 | A single counter followed by a count responder answers "0". |
| MiddlewareProps.MultipleStacksChain | packages/fresh/src/middlewares/mod_test.ts:120-134 | Four appenders starting from "" answer "ABCD". |
| MiddlewareProps.ThrowingChain | packages/fresh/src/middlewares/mod_test.ts:186-193 | The throwing chain fails with "fail". The `catch` blocks fire in the order C, B, A, each seeing "fail". |
| MiddlewareProps.LazyChainFirstRequest | packages/fresh/src/middlewares/mod_test.ts:235-237 | The lazy chain's first request answers "A_lazy_B" with one factory call and leaves every slot resolved. |
| MiddlewareProps.LazyChainTwoRequests | packages/fresh/src/middlewares/mod_test.ts:235-242 | Two requests both answer "A_lazy_B" with one factory call in total. |
| Js.NatToString | packages/fresh/src/middlewares/mod_test.ts:81 | `String(count)` is a non-empty string of decimal digits with no leading zero. |
| Js.NatToStringRoundTrip | packages/fresh/src/middlewares/mod_test.ts:81 | Reading the decimal text of a count gives back the count. |
| Js.NatToStringInjective | packages/fresh/src/middlewares/mod_test.ts:81 | Different counts print differently. |
| TestServer.NewMockBuildCache | packages/test-utils/src/server.ts:150-153 | The error overlay is on exactly in development mode. The cache keeps its route files and has an empty root and client entry. |
| TestServer.GetEntryAssets | packages/test-utils/src/server.ts:155-157 | A mock cache has no entry assets. |
| TestServer.ReadFile | packages/test-utils/src/server.ts:163-165 | A mock cache serves no static file for any path. |
| TestServer.ServeContext | packages/test-utils/src/server.ts:211-227 | The Context has an empty state, the given route or none, and the given configuration or the production default. Its fallback is the given `next` or 404 "not found". Its build cache is the given one, or an empty mock whose overlay is on exactly when the Context's mode is development. |
| TestServer.ServedChainAnswersAsRun | packages/test-utils/src/server.ts:211-229 | Serving a chain answers as running it from an empty state, with the given or the default fallback, does. This holds for errors and responses alike. |
| TestServer.ServedChainFallsThroughToNotFound | packages/test-utils/src/server.ts:212-213 | Without `next`, a chain of delegating middlewares (or an empty chain) answers 404 "not found". |
| TestServer.DefaultServeContext | packages/test-utils/src/server.ts:196-200 | With no options, the Context has no route, the production default configuration, the 404 fallback and a mock cache with the overlay off. |
| FakeFs.Cwd | packages/test-utils/src/server.ts:76 | The working directory is always ".". |
| FakeFs.Walk | packages/test-utils/src/server.ts:77-88 | Walking yields one file entry per key, in key order, whatever the root. Each entry is a plain file whose name and path are both the key. |
| FakeFs.IsDirectory | packages/test-utils/src/server.ts:90-92 | A path is a directory exactly when some key starts with the path followed by "/". |
| FakeFs.Lookup | packages/test-utils/src/server.ts:98 | A lookup finds nothing exactly when no key equals the path. Whatever it finds is registered under that key. |
| FakeFs.ReadTextFile | packages/test-utils/src/server.ts:97-99 | Reading a path that is not a key gives "undefined". Reading a key gives its content. |
| FakeFs.WalkThenReadRecoversContents | packages/test-utils/src/server.ts:77-99 | Reading back the path of any walked entry gives that file's content. |
| FakeFs.AncestorsOfKeysAreDirectories | packages/test-utils/src/server.ts:90-92 | Every prefix of a key that ends just before a "/" is reported as a directory. |
| EnvGuard.UsingEnv | packages/test-utils/src/server.ts:407-413 | After the guard is created the variable holds the new value and no other variable changes. The guard remembers the previous value, or that the variable was unset. |
| EnvGuard.Dispose | packages/internal/testing.ts:265-271 | Disposing puts back the remembered value, or unsets the variable when it was unset, and changes no other variable. |
| EnvGuard.DisposeRestoresGuardedVariable | packages/internal/testing.ts:261-273 | Whatever happens to other variables while the guard is active, disposing it restores the guarded variable to its value before the guard and keeps those other changes. |
| EnvGuard.UsingThenDisposeIsIdentity | packages/plugin-vite/tests/utils.ts:183-195 | Creating a guard and disposing it at once gives back the original environment exactly. |
| EnvGuard.DisposeIdempotent | packages/plugin-vite/tests/utils.ts:186-193 | Disposing twice is the same as disposing once. |
| EnvGuard.UsingAll | packages/plugin-vite/tests/utils.ts:183-185 | Nested guards make one guard per binding, for the bound names, in order. They never unset a variable. While all are active, the innermost binding's value is the one visible. |
| EnvGuard.NestedGuardsRestore | packages/test-utils/src/server.ts:407-422 | Nested guards disposed innermost first restore the original environment exactly. |
| PrettyDom.Indent | packages/internal/testing.ts:158 | The indentation at depth `d` is exactly `2d` spaces. |
| PrettyDom.Layout | packages/internal/testing.ts:157-198 | A node's lines are never less indented than the node itself, and its first and last lines are at the node's depth. A node prints nothing exactly when it is neither text, a comment nor an HTML element. |
| PrettyDom.PrintNodeRendersLayout | packages/internal/testing.ts:157-198 | The printer's output is exactly the layout's lines, each indented by its depth and ended by a line break, in document order. |
| PrettyDom.PrintChildrenRendersLayout | packages/internal/testing.ts:185-191 | An element's children print as their layouts, one after another, one level deeper. |
| PrettyDom.WrappedChildrenRender | packages/internal/testing.ts:184-197 | An element with children prints its opening line, its children's lines and its closing line at its own depth. |
| PrettyDom.ElementShapes | packages/internal/testing.ts:179-197 | A void element prints its opening tag alone, whatever its children. Any other element's last line ends with its own closing tag, and it prints on one line exactly when it has no children. |
| PrettyDom.PrintChildrenAppend | packages/internal/testing.ts:186-189 | Siblings print one after another in `childNodes` order. |
| PrettyDom.AttrsTextAppend | packages/internal/testing.ts:173-177 | Attributes print in their order. |
| PrettyDom.PrettyDomIsDoctypeThenRoot | packages/internal/testing.ts:150-155 | A printed document is the doctype line followed by the root element's layout at depth 0. A missing doctype name prints as empty. |
| PrettyDom.VoidMatchIsExact | packages/internal/testing.ts:148 | There are 14 void names. The regular expression is anchored and case-sensitive, so "BR", "brx" and "abbr" are not void. |
| PrettyDom.TextLineBreakIsNotIndented | packages/internal/testing.ts:159-161 | Text content is printed verbatim. A line break inside a text node starts a line without the node's indentation. |

## Left out

- The runner module itself (`packages/fresh/src/middlewares/mod.ts`) is not part of this model. The runner is modelled from the behaviour its tests fix.
- Middlewares are async closures over a mutable Context. They are modelled as a closed set of handler shapes, run sequentially. Awaiting and concurrency are not modelled.
- When lazy factories run: the model resolves a lazy slot when the cursor reaches it. A runner that resolves every slot before the first call gives the same responses and the same single factory call in every test case.
- A factory that rejects, and a middleware that calls `next()` twice, are not modelled. No test exercises them.
- TestServer.ServeContext and Middlewares.Run: the fallback the Context calls when `next()` runs past the last entry is a producer in the source: `() => Promise.resolve(new Response(""))` in the tests, and `options.next` in `serveMiddleware`. Here it is reduced to the response it resolves to. A producer that rejects (which would make an exhausted chain fail) or that answers differently from call to call is not modelled.
- The `Request`, URL, connection info, headers and response headers are left out. A `Response` is its status and body text.
- The `FakeServer` (URL resolution, request methods) is left out. Each request is a call to the served middleware.
- `MockBuildCache.getFsRoutes` and `islandRegistry` are left out. They depend on `fsItemsToCommands` and island types, which are not part of this model. Route files are opaque values.
- A supplied build cache is an opaque identifier.
- `createFakeFs`: `readFile` is `Deno.readFile` on the real disk, and `mkdirp` does nothing. Both are left out.
- FakeFs.ReadTextFile: values are taken to be strings. `String(value)` of other JavaScript values and keys inherited from `Object.prototype` are not modelled. The file sequence is taken to be in `Object.keys` order already; ordering the keys (integer-like keys first, then insertion order) is the caller's part and is not modelled.
- EnvGuard.UsingEnv: the failures of `Deno.env.get` and `Deno.env.set` are not modelled. They throw for an empty name, a name containing `=` or NUL, a value containing NUL, and a process without environment permission. The model instead returns a guard and an updated environment for every string. Names are compared exactly, so the case-insensitive names of Windows (`Path` and `PATH` are one variable) are not modelled either.
- Js.NatToString: a count is an unbounded natural number. A JavaScript number prints in exponent form from 1e21 up, and `count++` is inexact above 2^53. A request starting from an empty state cannot reach either, but MiddlewareProps.CountersBumpOnceEach admits any starting count.
- Middlewares.Terminal: a thrown `Error` is reduced to its message. "The same error reaches every catch" is therefore stated as "the same message", not as identity of the error object.
- PrettyDom: terminal colours are dropped. They only wrap pieces of the output in escape sequences.
- PrettyDom: parsing HTML into a document (linkedom) is left out, as is the query helpers' DOM lookup. The document element is taken to be present.
- PrettyDom.Layout: the indentation bound holds per emitted line, not per physical line, because text and comment content are printed verbatim, line breaks included.
- Process and file-system helpers are left out: child-process servers, temporary directories, `writeFiles`, `updateFile`, directory copying, the Vite builder, `Deno.serve` and the browser helpers. They are I/O with no logic to model.
- The view-transitions demo application is left out. It is an example app, not part of the core.

=== FILE: env_guard.dfy ===
/**
 `usingEnv(name, value)`: set an environment variable for the lifetime of a
 `using` block and put back what was there before when the block is left.
 The same function appears, with the same body, in
 packages/test-utils/src/server.ts, packages/internal/testing.ts and
 packages/plugin-vite/tests/utils.ts.

 The process environment is threaded explicitly as a map from variable names
 to values; a name that is not a key is an unset variable.
 */
module EnvGuard {
  import opened Js

  type Env = map<string, string>

  /** `Deno.env.get(name)`. */
  function Get(env: Env, name: string): Option<string> {
    if name in env then Some(env[name]) else None
  }

  /** The disposable `usingEnv` returns: the variable it guards and the value it found there. */
  datatype Guard = Guard(name: string, prev: Option<string>)

  /** Two environments that agree on every variable other than `name`. */
  predicate AgreeExcept(e1: Env, e2: Env, name: string) {
    (forall k :: k in e1 && k != name ==> k in e2 && e1[k] == e2[k])
    && (forall k :: k in e2 && k != name ==> k in e1)
  }

  /**
   `usingEnv(name, value)`: remembers the variable's current value (or that
   it was unset), then sets it to `value`, touching nothing else.
   */
  function UsingEnv(env: Env, name: string, value: string): (r: (Env, Guard))
    ensures Get(r.0, name) == Some(value)
    ensures AgreeExcept(env, r.0, name)
    ensures r.1 == Guard(name, Get(env, name))
  {
    (env[name := value], Guard(name, Get(env, name)))
  }

  /**
   The guard's `[Symbol.dispose]`: puts back the remembered value, or deletes
   the variable when it was unset, touching nothing else.
   */
  function Dispose(env: Env, g: Guard): (r: Env)
    ensures Get(r, g.name) == g.prev
    ensures AgreeExcept(env, r, g.name)
  {
    if g.prev.None? then env - {g.name} else env[g.name := g.prev.value]
  }

  /**
   Disposing restores the guarded variable to what it was before the guard was
   created, while whatever happened meanwhile to other variables stays.
   */
  lemma DisposeRestoresGuardedVariable(env: Env, name: string, value: string, during: Env)
    ensures var after := Dispose(during, UsingEnv(env, name, value).1);
      Get(after, name) == Get(env, name) && AgreeExcept(during, after, name)
  {
  }

  /** Creating a guard and disposing it straight away gives back the original environment. */
  lemma UsingThenDisposeIsIdentity(env: Env, name: string, value: string)
    ensures var (set_, g) := UsingEnv(env, name, value); Dispose(set_, g) == env
  {
    var (set_, g) := UsingEnv(env, name, value);
    var after := Dispose(set_, g);
    assert forall k :: k in after <==> k in env;
    assert forall k :: k in after ==> after[k] == env[k];
  }

  /** Disposing twice is the same as disposing once. */
  lemma DisposeIdempotent(env: Env, g: Guard)
    ensures Dispose(Dispose(env, g), g) == Dispose(env, g)
  {
    var once := Dispose(env, g);
    var twice := Dispose(once, g);
    assert forall k :: k in twice <==> k in once;
  }

  /** Guards created one after another for `bindings`, in order: the environment they leave and the guards. */
  function UsingAll(env: Env, bindings: seq<(string, string)>): (r: (Env, seq<Guard>))
    ensures |r.1| == |bindings|
    ensures forall k :: 0 <= k < |bindings| ==> r.1[k].name == bindings[k].0
    ensures forall k :: k in env ==> k in r.0
    // while every block is active, the innermost guard's value is the one visible
    ensures |bindings| > 0 ==> Get(r.0, bindings[|bindings| - 1].0) == Some(bindings[|bindings| - 1].1)
    decreases |bindings|
  {
    if |bindings| == 0 then (env, [])
    else
      var (env1, g) := UsingEnv(env, bindings[0].0, bindings[0].1);
      var (env2, gs) := UsingAll(env1, bindings[1..]);
      (env2, [g] + gs)
  }

  /** Leaving nested `using` blocks: the guards are disposed innermost (last created) first. */
  function DisposeAll(env: Env, guards: seq<Guard>): Env {
    if |guards| == 0 then env else Dispose(DisposeAll(env, guards[1..]), guards[0])
  }

  /** Nested guards disposed in reverse order of creation restore the original environment exactly. */
  lemma {:induction false} NestedGuardsRestore(env: Env, bindings: seq<(string, string)>)
    ensures var (inner, guards) := UsingAll(env, bindings); DisposeAll(inner, guards) == env
    decreases |bindings|
  {
    if |bindings| > 0 {
      var (env1, g) := UsingEnv(env, bindings[0].0, bindings[0].1);
      NestedGuardsRestore(env1, bindings[1..]);
      UsingThenDisposeIsIdentity(env, bindings[0].0, bindings[0].1);
    }
  }
}

=== FILE: fake_fs.dfy ===
/**
 `createFakeFs(files)` of packages/test-utils/src/server.ts: an in-memory file
 system adapter over a record of path to content. The record is a sequence of
 files in `Object.keys` order; JavaScript object keys are unique, which
 `DistinctPaths` states.
 */
module FakeFs {
  import opened Js

  /** One key of the record and the text its value converts to. */
  datatype File = File(path: string, content: string)

  /** The `WalkEntry` the adapter yields for each file. */
  datatype WalkEntry = WalkEntry(isDirectory: bool, isFile: bool, isSymlink: bool, name: string, path: string)

  predicate DistinctPaths(files: seq<File>) {
    forall i, j :: 0 <= i < j < |files| ==> files[i].path != files[j].path
  }

  /** `cwd()`: always the current directory, whatever the files. */
  function Cwd(files: seq<File>): (dir: string)
    ensures dir == "."
  {
    "."
  }

  /**
   `walk(root)`: one file entry per key, in key order, whatever the root; the
   entry's name and path are both the key.
   */
  method Walk(files: seq<File>, root: string) returns (entries: seq<WalkEntry>)
    ensures |entries| == |files|
    ensures forall i :: 0 <= i < |files| ==>
      entries[i] == WalkEntry(false, true, false, files[i].path, files[i].path)
  {
    entries := [];
    var i := 0;
    while i < |files|
      invariant i <= |files|
      invariant |entries| == i
      invariant forall k :: 0 <= k < i ==> entries[k] == WalkEntry(false, true, false, files[k].path, files[k].path)
    {
      var file := files[i];
      entries := entries + [WalkEntry(false, true, false, file.path, file.path)];
      i := i + 1;
    }
  }

  /** `isDirectory(dir)`: some key starts with `dir + "/"`. */
  function IsDirectory(files: seq<File>, dir: string): (b: bool)
    ensures b <==> exists i :: 0 <= i < |files| && dir + "/" <= files[i].path
  {
    if |files| == 0 then false
    else if dir + "/" <= files[0].path then true
    else
      var rest := IsDirectory(files[1..], dir);
      assert rest ==> exists i :: 0 <= i < |files| && dir + "/" <= files[i].path by {
        if rest {
          var i :| 0 <= i < |files[1..]| && dir + "/" <= files[1..][i].path;
          assert files[i + 1] == files[1..][i];
        }
      }
      rest
  }

  /** The content of the first file registered under `path`, if any. */
  function Lookup(files: seq<File>, path: string): (r: Option<string>)
    ensures r.None? <==> forall i :: 0 <= i < |files| ==> files[i].path != path
    ensures r.Some? ==> exists i :: 0 <= i < |files| && files[i] == File(path, r.value)
  {
    if |files| == 0 then None
    else if files[0].path == path then Some(files[0].content)
    else
      var r := Lookup(files[1..], path);
      assert r.Some? ==> exists i :: 0 <= i < |files| && files[i] == File(path, r.value) by {
        if r.Some? {
          var i :| 0 <= i < |files[1..]| && files[1..][i] == File(path, r.value);
          assert files[i + 1] == File(path, r.value);
        }
      }
      assert r.None? ==> forall i :: 0 <= i < |files| ==> files[i].path != path by {
        if r.None? {
          forall i | 0 <= i < |files| ensures files[i].path != path {
            if i > 0 { assert files[i] == files[1..][i - 1]; }
          }
        }
      }
      r
  }

  /** `readTextFile(path)`: `String(files[path])`, so "undefined" for a path that is not a key. */
  function ReadTextFile(files: seq<File>, path: string): (text: string)
    ensures (forall i :: 0 <= i < |files| ==> files[i].path != path) ==> text == UndefinedText
    ensures DistinctPaths(files) ==> forall i :: 0 <= i < |files| && files[i].path == path ==> text == files[i].content
  {
    var r := Lookup(files, path);
    assert DistinctPaths(files) && r.Some? ==> forall i :: 0 <= i < |files| && files[i].path == path ==> r.value == files[i].content by {
      if DistinctPaths(files) && r.Some? {
        var j :| 0 <= j < |files| && files[j] == File(path, r.value);
      }
    }
    r.GetOr(UndefinedText)
  }

  /** Reading back the path of any walked entry yields the content registered under that key. */
  lemma WalkThenReadRecoversContents(files: seq<File>, entries: seq<WalkEntry>, i: nat)
    requires DistinctPaths(files)
    requires |entries| == |files| && i < |files|
    requires forall k :: 0 <= k < |files| ==>
      entries[k] == WalkEntry(false, true, false, files[k].path, files[k].path)
    ensures ReadTextFile(files, entries[i].path) == files[i].content
  {
  }

  /** Every directory on a key's path, below the key itself, is reported as a directory. */
  lemma AncestorsOfKeysAreDirectories(files: seq<File>, i: nat, dir: string, rest: string)
    requires i < |files| && files[i].path == dir + "/" + rest
    ensures IsDirectory(files, dir)
  {
    assert (dir + "/") + rest == files[i].path;
  }
}

=== FILE: js.dfy ===
/**
 JavaScript value shapes the modelled TypeScript relies on: a property that may
 be missing (`Option`), the three-way `undefined | null | value` that the `??`
 operator collapses (`Nullish`), and `String(n)` on a non-negative integer.
 */
module Js {

  /** A value that may be absent: `Some(v)`, or `None` for `undefined`. */
  datatype Option<+T> = None | Some(value: T) {

    function GetOr(default: T): T {
      match this
      case Some(v) => v
      case None => default
    }
  }

  /** An optional argument as TypeScript sees it: left out, `null`, or given. */
  datatype Nullish<+T> = Undefined | Null | Defined(value: T)

  /** `x ?? d`: both `undefined` and `null` fall back to `d`. */
  function Coalesce<T>(x: Nullish<T>, d: T): T {
    if x.Defined? then x.value else d
  }

  /** `x?.f ?? d` for an optional `x` whose projection `f` is always present. */
  function CoalesceMap<T, U>(x: Nullish<T>, f: T -> U, d: U): U {
    if x.Defined? then f(x.value) else d
  }

  /** `String(undefined)`. */
  const UndefinedText: string := "undefined"

  function DigitChar(d: nat): (c: char)
    requires d < 10
    ensures '0' <= c <= '9'
    ensures c as int - '0' as int == d
  {
    "0123456789"[d]
  }

  /** `String(n)` for a non-negative integer: its decimal digits, no leading zero. */
  function NatToString(n: nat): (s: string)
    ensures 1 <= |s|
    ensures forall i :: 0 <= i < |s| ==> '0' <= s[i] <= '9'
    ensures |s| > 1 ==> s[0] != '0'
    decreases n
  {
    if n < 10 then [DigitChar(n)] else NatToString(n / 10) + [DigitChar(n % 10)]
  }

  /** The number a string of decimal digits denotes (most significant first). */
  function DigitsValue(s: string): nat
    requires forall i :: 0 <= i < |s| ==> '0' <= s[i] <= '9'
  {
    if |s| == 0 then 0
    else 10 * DigitsValue(s[..|s| - 1]) + (s[|s| - 1] as int - '0' as int)
  }

  /** Reading back what `NatToString` wrote gives the original number. */
  lemma {:induction false} NatToStringRoundTrip(n: nat)
    ensures DigitsValue(NatToString(n)) == n
    decreases n
  {
    if n >= 10 {
      NatToStringRoundTrip(n / 10);
      var s := NatToString(n);
      assert s[..|s| - 1] == NatToString(n / 10);
    }
  }

  /** Distinct numbers print differently, so the printed count identifies the count. */
  lemma NatToStringInjective(m: nat, n: nat)
    ensures NatToString(m) == NatToString(n) ==> m == n
  {
    NatToStringRoundTrip(m);
    NatToStringRoundTrip(n);
  }
}

=== FILE: middleware_props.dfy ===
/**
 What `runMiddlewares` guarantees, stated over the model in `Middlewares`:
 the shape of one traversal (in order, once each, stop at the first answer),
 write-back of lazy slots, error propagation, and the behaviours the cases of
 packages/fresh/src/middlewares/mod_test.ts fix, first for all chains of the
 tested shape and then for the tested chains themselves.
 */
module MiddlewareProps {
  import opened Js
  import opened Middlewares

  /** Two entry lists that hold the same middleware in every slot, lazily or not. */
  predicate SameHandlers(es1: seq<Entry>, es2: seq<Entry>) {
    |es1| == |es2| && forall j :: 0 <= j < |es1| ==> es1[j].handler == es2[j].handler
  }

  /** Two traversals a client and the handlers themselves cannot tell apart. */
  predicate SameBehaviour(r1: RunResult, r2: RunResult) {
    r1.outcome == r2.outcome && r1.state == r2.state && r1.entered == r2.entered && r1.caught == r2.caught
  }

  // ---------------------------------------------------------------------------
  // The shape of one traversal

  /**
   A traversal resolves exactly the slots it invoked, keeps the middleware in
   every slot, leaves the other slots untouched, and calls one factory for each
   lazy slot it resolved.
   */
  lemma {:induction false} RunResolvesEnteredSlots(es: seq<Entry>, cursor: nat, st: State, fallback: Response)
    ensures var r := Run(es, cursor, st, fallback);
      && (forall j :: 0 <= j < |es| ==>
            r.entries[j] == (if cursor <= j < cursor + |r.entered| then Eager(es[j].handler) else es[j]))
      && CountLazy(r.entries) + r.calls == CountLazy(es)
    decreases |es| - cursor
  {
    if cursor < |es| {
      var h := es[cursor].handler;
      var resolved := es[cursor := Eager(h)];
      CountLazyResolve(es, cursor);
      if CallsNext(h) {
        RunResolvesEnteredSlots(resolved, cursor + 1, Before(h, st), fallback);
      }
    }
  }

  /**
   Every invoked entry except the last one called `next()`; the last one
   answered or threw without it, unless the chain ran out.
   */
  lemma {:induction false} RunDelegatesUntilLast(es: seq<Entry>, cursor: nat, st: State, fallback: Response)
    ensures var r := Run(es, cursor, st, fallback);
      && (forall j :: cursor <= j < cursor + |r.entered| - 1 ==> CallsNext(es[j].handler))
      && (cursor + |r.entered| < |es| ==> !CallsNext(es[cursor + |r.entered| - 1].handler))
    decreases |es| - cursor
  {
    if cursor < |es| {
      var h := es[cursor].handler;
      var resolved := es[cursor := Eager(h)];
      if CallsNext(h) {
        RunDelegatesUntilLast(resolved, cursor + 1, Before(h, st), fallback);
        assert forall j :: cursor < j < |es| ==> resolved[j] == es[j];
      }
    }
  }

  /**
   A failing traversal fails with exactly the error its innermost invoked
   middleware threw; every catch block that fired saw that same error; and a
   traversal that answers fired no catch block at all.
   */
  lemma {:induction false} RunFailureIsInnermostThrow(es: seq<Entry>, cursor: nat, st: State, fallback: Response)
    ensures var r := Run(es, cursor, st, fallback);
      && (r.outcome.Err? ==> cursor < |es| && es[cursor + |r.entered| - 1].handler == Throw(r.outcome.error))
      && (r.outcome.Err? ==> forall k :: 0 <= k < |r.caught| ==> r.caught[k].error == r.outcome.error)
      && (r.outcome.Resp? ==> r.caught == [])
    decreases |es| - cursor
  {
    if cursor < |es| {
      var h := es[cursor].handler;
      var resolved := es[cursor := Eager(h)];
      if CallsNext(h) {
        RunFailureIsInnermostThrow(resolved, cursor + 1, Before(h, st), fallback);
      }
    }
  }

  /**
   The catch records a failure `e` leaves when it unwinds through the entries
   at indexes `lo` up to `hi`: one per catch-record-rethrow wrapper among them,
   innermost (highest index) first.
   */
  function Observers(es: seq<Entry>, lo: nat, hi: nat, e: string): seq<Observed>
    requires hi <= |es|
    decreases hi - lo
  {
    if lo >= hi then []
    else
      var h := es[lo].handler;
      Observers(es, lo + 1, hi, e) + (if h.CatchRecordRethrow? then [Observed(h.tag, e)] else [])
  }

  /** The catch records depend only on the middleware in each slot. */
  lemma {:induction false} ObserversSameHandlers(es1: seq<Entry>, es2: seq<Entry>, lo: nat, hi: nat, e: string)
    requires SameHandlers(es1, es2) && hi <= |es1|
    ensures Observers(es1, lo, hi, e) == Observers(es2, lo, hi, e)
    decreases hi - lo
  {
    if lo < hi {
      ObserversSameHandlers(es1, es2, lo + 1, hi, e);
    }
  }

  /**
   Every enclosing catch block fires on a failure, wherever the wrappers sit in
   the chain: a failing traversal records the failure once for each
   catch-record-rethrow wrapper it invoked, and no other, innermost first.
   */
  lemma {:induction false} FailureFiresEveryEnclosingCatch(es: seq<Entry>, cursor: nat, st: State, fallback: Response)
    ensures var r := Run(es, cursor, st, fallback);
      r.outcome.Err? ==> cursor < |es| && r.caught == Observers(es, cursor, cursor + |r.entered|, r.outcome.error)
    decreases |es| - cursor
  {
    if cursor >= |es| {
      return;
    }
    var h := es[cursor].handler;
    var resolved := es[cursor := Eager(h)];
    if CallsNext(h) && cursor + 1 < |es| {
      var d := Run(resolved, cursor + 1, Before(h, st), fallback);
      FailureFiresEveryEnclosingCatch(resolved, cursor + 1, Before(h, st), fallback);
      if d.outcome.Err? {
        ObserversSameHandlers(resolved, es, cursor + 1, cursor + 1 + |d.entered|, d.outcome.error);
      }
    }
  }

  /**
   A throw reached through delegating entries fails the whole chain with its
   error: the failure propagates up through every enclosing `next()`, and the
   traversal stops at the throwing entry.
   */
  lemma {:induction false} ThrowEscapes(es: seq<Entry>, cursor: nat, t: nat, e: string, st: State, fallback: Response)
    requires cursor <= t < |es|
    requires forall j :: cursor <= j < t ==> CallsNext(es[j].handler)
    requires es[t].handler == Throw(e)
    ensures var r := Run(es, cursor, st, fallback);
      r.outcome == Err(e) && cursor + |r.entered| == t + 1
    decreases t - cursor
  {
    if cursor < t {
      var h := es[cursor].handler;
      ThrowEscapes(es[cursor := Eager(h)], cursor + 1, t, e, Before(h, st), fallback);
    }
  }

  /** If every remaining entry delegates, the chain runs out and answers with the Context's fallback. */
  lemma {:induction false} ExhaustedChainYieldsFallback(es: seq<Entry>, cursor: nat, st: State, fallback: Response)
    requires forall j :: cursor <= j < |es| ==> CallsNext(es[j].handler)
    ensures Run(es, cursor, st, fallback).outcome == Resp(fallback)
    ensures cursor <= |es| ==> |Run(es, cursor, st, fallback).entered| == |es| - cursor
    decreases |es| - cursor
  {
    if cursor < |es| {
      var h := es[cursor].handler;
      var resolved := es[cursor := Eager(h)];
      ExhaustedChainYieldsFallback(resolved, cursor + 1, Before(h, st), fallback);
    }
  }

  // ---------------------------------------------------------------------------
  // Lazy entries

  /** What a traversal does depends only on the middleware in each slot, not on whether it is still lazy. */
  lemma {:induction false} RunDependsOnlyOnHandlers(
    es1: seq<Entry>, es2: seq<Entry>, cursor: nat, st: State, fallback: Response)
    requires SameHandlers(es1, es2)
    ensures SameBehaviour(Run(es1, cursor, st, fallback), Run(es2, cursor, st, fallback))
    decreases |es1| - cursor
  {
    if cursor < |es1| {
      var h := es1[cursor].handler;
      if CallsNext(h) {
        var resolved1 := es1[cursor := Eager(h)];
        var resolved2 := es2[cursor := Eager(h)];
        RunDependsOnlyOnHandlers(resolved1, resolved2, cursor + 1, Before(h, st), fallback);
      }
    }
  }

  /**
   A middleware that sets the text overwrites whatever text came in: the
   traversal from it does not depend on the incoming text at all.
   */
  lemma SetTextForgetsIncomingText(
    es: seq<Entry>, cursor: nat, s: string, t1: Option<string>, t2: Option<string>, count: Option<nat>, fallback: Response)
    requires cursor < |es| && es[cursor].handler == SetText(s)
    ensures Run(es, cursor, State(t1, count), fallback) == Run(es, cursor, State(t2, count), fallback)
  {
    assert Before(SetText(s), State(t1, count)) == Before(SetText(s), State(t2, count));
  }

  /** A lazy entry behaves like the eager middleware its factory yields, at the same position. */
  lemma LazyBehavesEager(es: seq<Entry>, i: nat, h: Handler, cursor: nat, st: State, fallback: Response)
    requires i < |es|
    ensures SameBehaviour(Run(es[i := Lazy(h)], cursor, st, fallback), Run(es[i := Eager(h)], cursor, st, fallback))
  {
    RunDependsOnlyOnHandlers(es[i := Lazy(h)], es[i := Eager(h)], cursor, st, fallback);
  }

  /**
   A second request over the entry list the first one left behind behaves the
   same, calls no factory, and leaves the list as it found it.
   */
  lemma SecondRequestCallsNoFactory(es: seq<Entry>, st: State, fallback: Response)
    ensures var r1 := Run(es, 0, st, fallback);
      var r2 := Run(r1.entries, 0, st, fallback);
      SameBehaviour(r1, r2) && r2.calls == 0 && r2.entries == r1.entries
  {
    var r1 := Run(es, 0, st, fallback);
    RunResolvesEnteredSlots(es, 0, st, fallback);
    RunDependsOnlyOnHandlers(es, r1.entries, 0, st, fallback);
    var r2 := Run(r1.entries, 0, st, fallback);
    RunResolvesEnteredSlots(r1.entries, 0, st, fallback);
    assert r2.entries == r1.entries;
  }

  /**
   `n` sequential requests, each with a fresh Context whose state is `st`,
   sharing one entry list: their outcomes, the entry list they leave and the
   number of factory calls they make in total. Every lazy slot's factory is
   called at most once over all of them, and every request answers as the
   first one did.
   */
  function Requests(es: seq<Entry>, st: State, fallback: Response, n: nat): (r: (seq<Outcome>, seq<Entry>, nat))
    ensures |r.0| == n && |r.1| == |es|
    ensures r.2 + CountLazy(r.1) == CountLazy(es)
    ensures forall k :: 0 <= k < n ==> r.0[k] == Run(es, 0, st, fallback).outcome
    decreases n
  {
    if n == 0 then ([], es, 0)
    else
      var first := Run(es, 0, st, fallback);
      RunResolvesEnteredSlots(es, 0, st, fallback);
      RunDependsOnlyOnHandlers(es, first.entries, 0, st, fallback);
      var rest := Requests(first.entries, st, fallback, n - 1);
      ([first.outcome] + rest.0, rest.1, first.calls + rest.2)
  }

  /**
   `next()` at a delegating entry: whatever the entry was, lazy or not, the
   traversal answers as the rest of the chain does from the state the entry
   passed on, after the entry's own post-processing, and has invoked this entry
   and then the rest.
   */
  lemma DelegationUnwinds(es: seq<Entry>, cursor: nat, st: State, fallback: Response)
    requires cursor < |es| && CallsNext(es[cursor].handler)
    ensures var h := es[cursor].handler;
      var r := Run(es, cursor, st, fallback);
      var d := Run(es, cursor + 1, Before(h, st), fallback);
      && r.outcome == d.outcome
      && r.state == After(h, d).state
      && r.caught == After(h, d).caught
      && r.entered == [cursor] + d.entered
  {
    var h := es[cursor].handler;
    RunDependsOnlyOnHandlers(es[cursor := Eager(h)], es, cursor + 1, Before(h, st), fallback);
  }

  // ---------------------------------------------------------------------------
  // Behaviours of the tested chain shapes

  /** The concatenation of a list of strings, in list order. */
  function Concat(ss: seq<string>): string {
    if |ss| == 0 then "" else ss[0] + Concat(ss[1..])
  }

  /**
   Appending middlewares run in list order: a run of appenders followed by a
   middleware that answers with the state text answers with the starting text
   followed by every appended marker, first to last.
   */
  lemma {:induction false} AppendersConcatenate(
    es: seq<Entry>, cursor: nat, ss: seq<string>, t: string, count: Option<nat>, fallback: Response)
    requires cursor + |ss| < |es|
    requires forall k :: 0 <= k < |ss| ==> es[cursor + k].handler == AppendText(ss[k])
    requires es[cursor + |ss|].handler == RespondText
    ensures Run(es, cursor, State(Some(t), count), fallback).outcome == Resp(TextResponse(t + Concat(ss)))
    decreases |ss|
  {
    if |ss| > 0 {
      var resolved := es[cursor := Eager(es[cursor].handler)];
      assert es[cursor + 0].handler == AppendText(ss[0]);
      assert forall k :: 0 <= k < |ss[1..]| ==> resolved[cursor + 1 + k].handler == AppendText(ss[1..][k]) by {
        forall k | 0 <= k < |ss[1..]|
          ensures resolved[cursor + 1 + k].handler == AppendText(ss[1..][k])
        {
          assert es[cursor + (k + 1)].handler == AppendText(ss[k + 1]);
        }
      }
      AppendersConcatenate(resolved, cursor + 1, ss[1..], t + ss[0], count, fallback);
      assert (t + ss[0]) + Concat(ss[1..]) == t + Concat(ss);
    }
  }

  /**
   A middleware that appends after `next()` returns passes the downstream
   response through unchanged: its append lands in the state, not in the
   response already built.
   */
  lemma PostNextAppendInvisible(es: seq<Entry>, cursor: nat, s: string, st: State, fallback: Response)
    requires cursor < |es| && es[cursor].handler == AppendAfterNext(s)
    ensures var r := Run(es, cursor, st, fallback);
      var d := Run(es, cursor + 1, st, fallback);
      && r.outcome == d.outcome
      && (r.outcome.Resp? ==> r.state.text == Some(AppendTo(d.state.text, s)))
      && (r.outcome.Err? ==> r.state == d.state)
  {
    RunDependsOnlyOnHandlers(es[cursor := Eager(es[cursor].handler)], es, cursor + 1, st, fallback);
  }

  /** `count` after `m` counting middlewares. */
  function BumpTimes(count: Option<nat>, m: nat): Option<nat>
    decreases m
  {
    if m == 0 then count else BumpTimes(Some(Bump(count)), m - 1)
  }

  /** `m` counters starting from a missing count leave `m - 1`: each adds exactly one after the first sets 0. */
  lemma {:induction false} BumpTimesFromMissing(m: nat, n: nat)
    ensures BumpTimes(Some(n), m) == Some(n + m)
    ensures m >= 1 ==> BumpTimes(None, m) == Some(m - 1)
  {
    if m > 0 {
      BumpTimesFromMissing(m - 1, n + 1);
      BumpTimesFromMissing(m - 1, 0);
    }
  }

  /**
   Each counting middleware runs once per request: `m` of them followed by a
   middleware that answers with the count answer with the count bumped exactly
   `m` times, so `m - 1` when the count started out missing.
   */
  lemma {:induction false} CountersBumpOnceEach(es: seq<Entry>, cursor: nat, m: nat, st: State, fallback: Response)
    requires cursor + m < |es|
    requires forall j :: cursor <= j < cursor + m ==> es[j].handler == CountThenNext
    requires es[cursor + m].handler == RespondCount
    ensures Run(es, cursor, st, fallback).outcome == Resp(TextResponse(CountText(BumpTimes(st.count, m))))
    ensures st.count.None? && m >= 1 ==>
      Run(es, cursor, st, fallback).outcome == Resp(TextResponse(NatToString(m - 1)))
    decreases m
  {
    if m > 0 {
      var resolved := es[cursor := Eager(es[cursor].handler)];
      CountersBumpOnceEach(resolved, cursor + 1, m - 1, Before(CountThenNext, st), fallback);
    }
    BumpTimesFromMissing(m, 0);
  }

  /**
   A failure thrown under a run of catch-record-rethrow wrappers escapes the
   whole chain unchanged, and every wrapper's catch block saw it, innermost
   wrapper first.
   */
  lemma {:induction false} CatchersObserveInnermostFirst(
    es: seq<Entry>, cursor: nat, tags: seq<string>, e: string, st: State, fallback: Response)
    requires cursor + |tags| < |es|
    requires forall k :: 0 <= k < |tags| ==> es[cursor + k].handler == CatchRecordRethrow(tags[k])
    requires es[cursor + |tags|].handler == Throw(e)
    ensures var r := Run(es, cursor, st, fallback);
      && r.outcome == Err(e)
      && |r.caught| == |tags|
      && forall k :: 0 <= k < |tags| ==> r.caught[k] == Observed(tags[|tags| - 1 - k], e)
    decreases |tags|
  {
    if |tags| > 0 {
      var resolved := es[cursor := Eager(es[cursor].handler)];
      assert es[cursor + 0].handler == CatchRecordRethrow(tags[0]);
      assert forall k :: 0 <= k < |tags[1..]| ==> resolved[cursor + 1 + k].handler == CatchRecordRethrow(tags[1..][k]) by {
        forall k | 0 <= k < |tags[1..]|
          ensures resolved[cursor + 1 + k].handler == CatchRecordRethrow(tags[1..][k])
        {
          assert es[cursor + (k + 1)].handler == CatchRecordRethrow(tags[k + 1]);
        }
      }
      CatchersObserveInnermostFirst(resolved, cursor + 1, tags[1..], e, st, fallback);
    }
  }

  // ---------------------------------------------------------------------------
  // The tested chains

  /** The response every test Context falls back to: `new Response("")`. */
  const TestFallback: Response := TextResponse("")

  /** The chain of the first test: set "A", append "B", append "C" only after `next()`, answer with the text. */
  const PostNextChain: seq<Entry> :=
    [Eager(SetText("A")), Eager(AppendText("B")), Eager(AppendAfterNext("C")), Eager(RespondText)]

  /** From the post-`next()` appender on, with text "AB": the answer is "AB", the state ends as "ABC". */
  lemma PostNextChainTail()
    ensures var r := Run(PostNextChain, 2, State(Some("AB"), None), TestFallback);
      r.outcome == Resp(TextResponse("AB")) && r.state == State(Some("ABC"), None)
  {
    var ab := State(Some("AB"), None);
    var d := Run(PostNextChain, 3, ab, TestFallback);
    assert d.outcome == Resp(TextResponse("AB")) && d.state == ab;
    PostNextAppendInvisible(PostNextChain, 2, "C", ab, TestFallback);
    assert AppendTo(Some("AB"), "C") == "ABC";
  }

  /** From the "B" appender on, with text "A": the same answer and final state. */
  lemma PostNextChainFromB()
    ensures var r := Run(PostNextChain, 1, State(Some("A"), None), TestFallback);
      r.outcome == Resp(TextResponse("AB")) && r.state == State(Some("ABC"), None)
  {
    var a := State(Some("A"), None);
    DelegationUnwinds(PostNextChain, 1, a, TestFallback);
    assert AppendTo(Some("A"), "B") == "AB";
    assert Before(AppendText("B"), a) == State(Some("AB"), None);
    PostNextChainTail();
  }

  /** The first test: the chain answers "AB", while the state ends as "ABC". */
  lemma PostNextAppendChain()
    ensures var r := Run(PostNextChain, 0, EmptyState, TestFallback);
      r.outcome == Resp(TextResponse("AB")) && r.state.text == Some("ABC")
  {
    DelegationUnwinds(PostNextChain, 0, EmptyState, TestFallback);
    assert Before(SetText("A"), EmptyState) == State(Some("A"), None);
    PostNextChainFromB();
  }

  /** One counter, then answer with the count: "0". */
  lemma CounterChainAnswersZero()
    ensures Run([Eager(CountThenNext), Eager(RespondCount)], 0, EmptyState, TestFallback).outcome
      == Resp(TextResponse("0"))
  {
    CountersBumpOnceEach([Eager(CountThenNext), Eager(RespondCount)], 0, 1, EmptyState, TestFallback);
  }

  /**
   Append "A", "B", "C", "D" to an empty text, then answer with it: "ABCD".
   The test answers with `String(ctx.state.text)`, which differs from
   `RespondText` only on a missing text; the test presets the text to "", so
   the two give the same response here.
   */
  lemma MultipleStacksChain()
    ensures Run([Eager(AppendText("A")), Eager(AppendText("B")), Eager(AppendText("C")), Eager(AppendText("D")),
                 Eager(RespondText)], 0, State(Some(""), None), TestFallback).outcome
      == Resp(TextResponse("ABCD"))
  {
    var es := [Eager(AppendText("A")), Eager(AppendText("B")), Eager(AppendText("C")), Eager(AppendText("D")),
               Eager(RespondText)];
    AppendersConcatenate(es, 0, ["A", "B", "C", "D"], "", None, TestFallback);
  }

  /** Three catch-record-rethrow wrappers around a throw: the error escapes, seen by C, then B, then A. */
  lemma ThrowingChain()
    ensures var r := Run([Eager(CatchRecordRethrow("A")), Eager(CatchRecordRethrow("B")),
                          Eager(CatchRecordRethrow("C")), Eager(Throw("fail"))], 0, EmptyState, TestFallback);
      r.outcome == Err("fail")
      && r.caught == [Observed("C", "fail"), Observed("B", "fail"), Observed("A", "fail")]
  {
    var es := [Eager(CatchRecordRethrow("A")), Eager(CatchRecordRethrow("B")),
               Eager(CatchRecordRethrow("C")), Eager(Throw("fail"))];
    CatchersObserveInnermostFirst(es, 0, ["A", "B", "C"], "fail", EmptyState, TestFallback);
  }

  /** The chain of the lazy-middleware test: set "A", a lazy "_lazy" appender, append "_B" and answer. */
  const LazyChain: seq<Entry> := [Eager(SetText("A")), Lazy(AppendText("_lazy")), Eager(AppendRespond("_B"))]

  /** From the lazy slot on, with text "A": the answer is "A_lazy_B", after invoking both remaining entries. */
  lemma LazyChainFromLazySlot()
    ensures var r := Run(LazyChain, 1, State(Some("A"), None), TestFallback);
      r.outcome == Resp(TextResponse("A_lazy_B")) && |r.entered| == 2
  {
    var a, aLazy := State(Some("A"), None), State(Some("A_lazy"), None);
    var d := Run(LazyChain, 2, aLazy, TestFallback);
    assert d.outcome == Resp(TextResponse("A_lazy_B")) && |d.entered| == 1;
    DelegationUnwinds(LazyChain, 1, a, TestFallback);
    assert AppendTo(Some("A"), "_lazy") == "A_lazy";
    assert Before(AppendText("_lazy"), a) == aLazy;
  }

  /** The whole lazy chain answers "A_lazy_B" and invokes all three entries. */
  lemma LazyChainAnswer()
    ensures var r := Run(LazyChain, 0, EmptyState, TestFallback);
      r.outcome == Resp(TextResponse("A_lazy_B")) && |r.entered| == 3
  {
    DelegationUnwinds(LazyChain, 0, EmptyState, TestFallback);
    assert Before(SetText("A"), EmptyState) == State(Some("A"), None);
    LazyChainFromLazySlot();
  }

  /** The first request over the lazy chain answers "A_lazy_B", calls the factory once and resolves its slot. */
  lemma LazyChainFirstRequest()
    ensures var first := Run(LazyChain, 0, EmptyState, TestFallback);
      && first.outcome == Resp(TextResponse("A_lazy_B"))
      && first.entries == [Eager(SetText("A")), Eager(AppendText("_lazy")), Eager(AppendRespond("_B"))]
      && first.calls == 1
  {
    var resolved := [Eager(SetText("A")), Eager(AppendText("_lazy")), Eager(AppendRespond("_B"))];
    LazyChainAnswer();
    RunResolvesEnteredSlots(LazyChain, 0, EmptyState, TestFallback);
    assert CountLazy(resolved) == 0;
    assert CountLazy(LazyChain) == 1;
  }

  /** Two requests over the lazy chain: "A_lazy_B" both times, one factory call in all. */
  lemma LazyChainTwoRequests()
    ensures var r := Requests(LazyChain, EmptyState, TestFallback, 2);
      r.0 == [Resp(TextResponse("A_lazy_B")), Resp(TextResponse("A_lazy_B"))] && r.2 == 1
  {
    var first := Run(LazyChain, 0, EmptyState, TestFallback);
    LazyChainFirstRequest();
    var rest := Requests(first.entries, EmptyState, TestFallback, 1);
    var resolved := [Eager(SetText("A")), Eager(AppendText("_lazy")), Eager(AppendRespond("_B"))];
    assert CountLazy(resolved) == 0;
    assert first.entries == resolved;
    var r := Requests(LazyChain, EmptyState, TestFallback, 2);
    assert r.2 == first.calls + rest.2;
    assert r.0[0] == first.outcome && r.0[1] == first.outcome;
  }
}

=== FILE: middlewares.dfy ===
/**
 The middleware chain runner of Fresh (`runMiddlewares`), as fixed by the
 cases in packages/fresh/src/middlewares/mod_test.ts.

 A middleware sees one per-request `Context`. It may answer directly, or call
 `ctx.next()` to hand over to the next entry and then pass on, post-process or
 rethrow what comes back. Entries are either eager middlewares or lazy
 factories; a lazy slot is resolved the first time the cursor reaches it and
 the resolved middleware is written back into the entry list, which the caller
 threads from one request to the next.

 Middlewares are closures in the source; here they are drawn from a small
 language (`Handler`) that has one constructor per shape the tests use.
 */
module Middlewares {
  import opened Js

  /** `ResolvedFreshConfig.mode`. */
  datatype Mode = Development | Production

  /** `ResolvedFreshConfig`: the application configuration a Context carries. */
  datatype Config = Config(root: string, mode: Mode, basePath: string)

  /** A `Response`, reduced to its status and its body text. */
  datatype Response = Response(status: int, body: string)

  /** `new Response(body)`: status 200. */
  function TextResponse(body: string): Response {
    Response(200, body)
  }

  /** What a middleware or the whole chain settles to: a response, or the thrown error. */
  datatype Outcome = Resp(response: Response) | Err(error: string)

  /**
   The fields of `ctx.state` the tests use. Both start out missing, as in the
   empty state object `{}` every test Context is built with.
   */
  datatype State = State(text: Option<string>, count: Option<nat>)

  const EmptyState: State := State(None, None)

  /**
   One request's Context: the matched route (`null` is `None`), the state bag,
   the configuration, the response the Context's own fallback produces when
   `next()` runs past the last entry, and a build cache the runner never reads.
   */
  datatype Context<C> = Context(
    route: Option<string>,
    state: State,
    config: Config,
    fallback: Response,
    buildCache: C)

  /** The middlewares of mod_test.ts, one constructor per shape. */
  datatype Handler =
    /** `ctx.state.text = s; return ctx.next();` */
    | SetText(s: string)
    /** `ctx.state.text += s; return ctx.next();` */
    | AppendText(s: string)
    /** `const res = await ctx.next(); ctx.state.text += s; return res;` */
    | AppendAfterNext(s: string)
    /** `if (count === undefined) count = 0; else count++; return ctx.next();` */
    | CountThenNext
    /** `try { return await ctx.next(); } catch (err) { <record err under tag>; throw err; }` */
    | CatchRecordRethrow(tag: string)
    /** `return new Response(ctx.state.text);` */
    | RespondText
    /** `return new Response(String(ctx.state.count));` */
    | RespondCount
    /** `ctx.state.text += s; return new Response(ctx.state.text);` */
    | AppendRespond(s: string)
    /** `throw new Error(message);` */
    | Throw(message: string)

  /** The handlers that delegate to `ctx.next()`; the others answer or throw without it. */
  predicate CallsNext(h: Handler) {
    h.SetText? || h.AppendText? || h.AppendAfterNext? || h.CountThenNext? || h.CatchRecordRethrow?
  }

  /** `text + s` in JavaScript: a missing `text` reads as the string "undefined". */
  function AppendTo(text: Option<string>, s: string): string {
    text.GetOr(UndefinedText) + s
  }

  /**
   Appending keeps the old text as a prefix and ends with the marker, nothing
   in between; a missing text leaves "undefined" in front.
   */
  lemma AppendKeepsTextThenMarker(text: Option<string>, s: string)
    ensures var r := AppendTo(text, s);
      && text.GetOr(UndefinedText) <= r
      && |r| == |text.GetOr(UndefinedText)| + |s| && r[|r| - |s|..] == s
      && (text.None? ==> r[..|UndefinedText|] == "undefined")
  {
  }

  /** The counter middleware: a missing count becomes 0, a present one goes up by one. */
  function Bump(count: Option<nat>): nat {
    if count.None? then 0 else count.value + 1
  }

  /** The state a delegating handler passes on to `ctx.next()`. */
  function Before(h: Handler, st: State): (r: State)
    requires CallsNext(h)
    ensures r.count == (if h.CountThenNext? then Some(Bump(st.count)) else st.count)
    ensures h.CountThenNext? ==> r.text == st.text
    // the text-writing handlers leave a text behind, ending in their marker, whatever was there before
    ensures h.SetText? ==> r.text == Some(h.s)
    ensures h.AppendText? ==>
      (r.text.Some? && st.text.GetOr(UndefinedText) <= r.text.value
       && r.text.value[|st.text.GetOr(UndefinedText)|..] == h.s)
    ensures h.AppendAfterNext? || h.CatchRecordRethrow? ==> r == st
  {
    match h
    case SetText(s) => st.(text := Some(s))
    case AppendText(s) => st.(text := Some(AppendTo(st.text, s)))
    case CountThenNext => st.(count := Some(Bump(st.count)))
    case _ => st
  }

  /** `String(ctx.state.count)`: the decimal count, or "undefined" when it was never set. */
  function CountText(count: Option<nat>): string {
    if count.Some? then NatToString(count.value) else UndefinedText
  }

  /** What a handler that does not call `ctx.next()` settles to, and the state it leaves. */
  function Terminal(h: Handler, st: State): (r: (Outcome, State))
    requires !CallsNext(h)
    ensures r.0.Err? <==> h.Throw?
    ensures h.Throw? ==> r.0.error == h.message
    ensures !h.AppendRespond? ==> r.1 == st
    ensures r.0.Resp? ==> r.0.response.status == 200
    // `new Response(undefined)` has an empty body; `String(undefined)` is "undefined"
    ensures h.RespondText? ==> r.0.response.body == st.text.GetOr("")
    ensures h.RespondCount? ==> r.0.response.body == CountText(st.count)
    // append-then-answer writes `text += s` back and answers with the new text
    ensures h.AppendRespond? ==>
      (r.1.count == st.count && r.1.text.Some? && r.0.response.body == r.1.text.value
       && st.text.GetOr(UndefinedText) <= r.1.text.value
       && r.1.text.value[|st.text.GetOr(UndefinedText)|..] == h.s)
  {
    match h
    case RespondText => (Resp(TextResponse(st.text.GetOr(""))), st)
    case RespondCount => (Resp(TextResponse(CountText(st.count))), st)
    case AppendRespond(s) =>
      var text := AppendTo(st.text, s);
      (Resp(TextResponse(text)), st.(text := Some(text)))
    case Throw(message) => (Err(message), st)
  }

  /** A chain entry: a middleware, or a lazy factory that yields `handler` when called. */
  datatype Entry = Eager(handler: Handler) | Lazy(handler: Handler)

  /** The number of slots still holding an uncalled factory. */
  function CountLazy(es: seq<Entry>): nat {
    if |es| == 0 then 0 else (if es[0].Lazy? then 1 else 0) + CountLazy(es[1..])
  }

  /** Writing the resolved middleware into slot `i` removes exactly that slot's factory, if any. */
  lemma {:induction false} CountLazyResolve(es: seq<Entry>, i: nat)
    requires i < |es|
    ensures CountLazy(es[i := Eager(es[i].handler)]) + (if es[i].Lazy? then 1 else 0) == CountLazy(es)
  {
    if i > 0 {
      var resolved := es[i := Eager(es[i].handler)];
      assert resolved[1..] == es[1..][i - 1 := Eager(es[i].handler)];
      CountLazyResolve(es[1..], i - 1);
    }
  }

  /** A `catch` block that fired: its tag and the error it saw. */
  datatype Observed = Observed(tag: string, error: string)

  /**
   Everything one traversal of the chain produces: its outcome, the state the
   Context ends with, the entry list with resolved slots written back, how many
   factories were called, the indexes of the entries invoked (in order), and the
   catch blocks that fired (in the order they fired).
   */
  datatype RunResult = RunResult(
    outcome: Outcome,
    state: State,
    entries: seq<Entry>,
    calls: nat,
    entered: seq<nat>,
    caught: seq<Observed>)

  /** What a delegating handler does with the result of its `ctx.next()`. */
  function After(h: Handler, d: RunResult): (r: RunResult)
    requires CallsNext(h)
    ensures r.outcome == d.outcome && r.entries == d.entries
    ensures r.calls == d.calls && r.entered == d.entered
    ensures r.state.count == d.state.count
    // only an append after a successful `next()` touches the state, and it appends to the text
    ensures !(h.AppendAfterNext? && d.outcome.Resp?) ==> r.state == d.state
    ensures h.AppendAfterNext? && d.outcome.Resp? ==>
      r.state.text.Some? && d.state.text.GetOr(UndefinedText) <= r.state.text.value
      && r.state.text.value[|d.state.text.GetOr(UndefinedText)|..] == h.s
    // a catch block records exactly when the downstream failed, and records that failure under its tag
    ensures h.CatchRecordRethrow? ==> (r.caught != d.caught <==> d.outcome.Err?)
    ensures r.caught == d.caught || (h.CatchRecordRethrow? && d.outcome.Err?
      && r.caught == d.caught + [Observed(h.tag, d.outcome.error)])
  {
    match h
    case AppendAfterNext(s) =>
      if d.outcome.Resp? then d.(state := d.state.(text := Some(AppendTo(d.state.text, s)))) else d
    case CatchRecordRethrow(tag) =>
      if d.outcome.Err? then d.(caught := d.caught + [Observed(tag, d.outcome.error)]) else d
    case _ => d
  }

  /**
   `ctx.next()` with the cursor at `cursor`: past the end it yields the Context's
   fallback response; otherwise it resolves the entry there (calling its factory
   if it is lazy and writing the result back), advances the cursor and invokes it.
   */
  function Run(es: seq<Entry>, cursor: nat, st: State, fallback: Response): (r: RunResult)
    // past the end: the fallback response, nothing invoked, nothing changed
    ensures cursor >= |es| ==> r == RunResult(Resp(fallback), st, es, 0, [], [])
    // the cursor only moves forward, one entry at a time: each entry runs at most once, in order
    ensures cursor < |es| ==> 1 <= |r.entered| && cursor + |r.entered| <= |es|
    ensures forall k :: 0 <= k < |r.entered| ==> r.entered[k] == cursor + k
    ensures |r.entries| == |es|
    decreases |es| - cursor
  {
    if cursor >= |es| then
      RunResult(Resp(fallback), st, es, 0, [], [])
    else
      var h := es[cursor].handler;
      var resolved := es[cursor := Eager(h)];
      var r :=
        if CallsNext(h) then After(h, Run(resolved, cursor + 1, Before(h, st), fallback))
        else
          var (outcome, st') := Terminal(h, st);
          RunResult(outcome, st', resolved, 0, [], []);
      r.(calls := r.calls + (if es[cursor].Lazy? then 1 else 0), entered := [cursor] + r.entered)
  }

  /** `runMiddlewares(entries, ctx)`: one traversal from the first entry. */
  function RunMiddlewares<C>(es: seq<Entry>, ctx: Context<C>): RunResult {
    Run(es, 0, ctx.state, ctx.fallback)
  }
}

=== FILE: pretty_dom.dfy ===
/**
 `prettyDom` and `_printDomNode` of packages/internal/testing.ts: a DOM tree
 printed one node per line, two spaces of indentation per level, with void
 elements printed as a lone opening tag. The terminal colours wrapped around
 the pieces are escape sequences for the eye only and are left out.
 */
module PrettyDom {
  import opened Js

  datatype Attr = Attr(name: string, value: string)

  /**
   A DOM node: a text node (node type 3), a comment (node type 8), an HTML
   element, or any other node (a doctype, a processing instruction, an element
   outside the HTML namespace), which the printer skips.
   */
  datatype Node =
    | Text(content: string)
    | Comment(content: string)
    | Element(localName: string, attributes: seq<Attr>, childNodes: seq<Node>)
    | Other(nodeType: int)

  /** A parsed document: the doctype's name, if it has a doctype, and the root element. */
  datatype Document = Document(doctypeName: Option<string>, documentElement: Node)

  /** `VOID_ELEMENTS`: the regular expression anchors both ends, so only these exact names match. */
  const VoidElements: set<string> :=
    {"area", "base", "br", "col", "embed", "hr", "img", "input", "link", "meta", "param", "source", "track", "wbr"}

  predicate IsVoid(localName: string) {
    localName in VoidElements
  }

  /** `"  ".repeat(depth)`. */
  function Indent(depth: nat): (r: string)
    ensures |r| == 2 * depth
    ensures forall i :: 0 <= i < |r| ==> r[i] == ' '
  {
    if depth == 0 then "" else "  " + Indent(depth - 1)
  }

  /** The attributes, each as ` name="value"`, in order. */
  function AttrsText(attrs: seq<Attr>): string {
    if |attrs| == 0 then "" else " " + attrs[0].name + "=\"" + attrs[0].value + "\"" + AttrsText(attrs[1..])
  }

  function OpenTag(localName: string, attrs: seq<Attr>): string {
    "<" + localName + AttrsText(attrs) + ">"
  }

  function CloseTag(localName: string): string {
    "</" + localName + ">"
  }

  /** `_printDomNode(node, indent)`. */
  function PrintNode(n: Node, indent: nat): string
    decreases n, 1
  {
    var space := Indent(indent);
    match n
    case Text(content) => space + content + "\n"
    case Comment(content) => space + "<!--" + content + "-->" + "\n"
    case Other(_) => ""
    case Element(name, attrs, children) =>
      if IsVoid(name) then space + OpenTag(name, attrs) + "\n"
      else if |children| > 0 then
        space + OpenTag(name, attrs) + "\n" + PrintChildren(children, indent + 1) + space + CloseTag(name) + "\n"
      else
        space + OpenTag(name, attrs) + CloseTag(name) + "\n"
  }

  /** The children of an element, each printed in turn, in `childNodes` order. */
  function PrintChildren(children: seq<Node>, indent: nat): string
    decreases children, 0
  {
    if |children| == 0 then "" else PrintNode(children[0], indent) + PrintChildren(children[1..], indent)
  }

  /** `prettyDom(doc)`: the doctype line, then the root element at depth 0. */
  function PrettyDom(doc: Document): string {
    "<!DOCTYPE " + doc.doctypeName.GetOr("") + ">\n" + PrintNode(doc.documentElement, 0)
  }

  // ---------------------------------------------------------------------------
  // The printed layout: which line each node produces and at what depth

  /** One emitted line: its depth and its text, without the indentation or the line break. */
  datatype Line = Line(depth: nat, text: string)

  /** Lines written out, each indented by two spaces per level and ended by a line break. */
  function Render(lines: seq<Line>): string {
    if |lines| == 0 then "" else Indent(lines[0].depth) + lines[0].text + "\n" + Render(lines[1..])
  }

  /**
   The lines a node contributes at `depth`: one for a text node, a comment, a
   void or childless element; for any other element an opening line, its
   children's lines one level deeper, and a closing line; none for other nodes.
   Every line is at least `depth` deep, the first and the last exactly `depth`.
   */
  function Layout(n: Node, depth: nat): (lines: seq<Line>)
    ensures forall k :: 0 <= k < |lines| ==> lines[k].depth >= depth
    ensures n.Other? <==> |lines| == 0
    ensures |lines| > 0 ==> lines[0].depth == depth && lines[|lines| - 1].depth == depth
    decreases n, 1
  {
    match n
    case Text(content) => [Line(depth, content)]
    case Comment(content) => [Line(depth, "<!--" + content + "-->")]
    case Other(_) => []
    case Element(name, attrs, children) =>
      if IsVoid(name) then [Line(depth, OpenTag(name, attrs))]
      else if |children| > 0 then
        [Line(depth, OpenTag(name, attrs))] + LayoutChildren(children, depth + 1) + [Line(depth, CloseTag(name))]
      else
        [Line(depth, OpenTag(name, attrs) + CloseTag(name))]
  }

  function LayoutChildren(children: seq<Node>, depth: nat): (lines: seq<Line>)
    ensures forall k :: 0 <= k < |lines| ==> lines[k].depth >= depth
    decreases children, 0
  {
    if |children| == 0 then [] else Layout(children[0], depth) + LayoutChildren(children[1..], depth)
  }

  lemma {:induction false} RenderAppend(a: seq<Line>, b: seq<Line>)
    ensures Render(a + b) == Render(a) + Render(b)
  {
    if |a| > 0 {
      assert (a + b)[0] == a[0];
      assert (a + b)[1..] == a[1..] + b;
      RenderAppend(a[1..], b);
      var head := Indent(a[0].depth) + a[0].text + "\n";
      assert Render(a + b) == head + Render(a[1..] + b);
      assert Render(a) == head + Render(a[1..]);
      assert head + (Render(a[1..]) + Render(b)) == (head + Render(a[1..])) + Render(b);
    } else {
      assert a + b == b;
    }
  }

  /** The printer writes out exactly the layout: its output is the layout's lines, indented, in order. */
  lemma {:induction false} PrintNodeRendersLayout(n: Node, depth: nat)
    ensures PrintNode(n, depth) == Render(Layout(n, depth))
    decreases n, 1
  {
    if n.Element? && !IsVoid(n.localName) && |n.childNodes| > 0 {
      PrintChildrenRendersLayout(n.childNodes, depth + 1);
    }
    NodeRendersLayout(n, depth);
  }

  /** A node prints as its layout, once an element's children (when they are printed) are known to. */
  lemma NodeRendersLayout(n: Node, depth: nat)
    requires n.Element? && !IsVoid(n.localName) && |n.childNodes| > 0 ==>
      PrintChildren(n.childNodes, depth + 1) == Render(LayoutChildren(n.childNodes, depth + 1))
    ensures PrintNode(n, depth) == Render(Layout(n, depth))
  {
    match n
    case Text(content) =>
      assert Layout(n, depth) == [Line(depth, content)];
      assert PrintNode(n, depth) == Indent(depth) + content + "\n";
      RenderOneLine(Line(depth, content));
    case Comment(content) =>
      assert Layout(n, depth) == [Line(depth, "<!--" + content + "-->")];
      assert PrintNode(n, depth) == Indent(depth) + "<!--" + content + "-->" + "\n";
      RenderOneLine(Line(depth, "<!--" + content + "-->"));
    case Other(_) =>
      assert Layout(n, depth) == [] && PrintNode(n, depth) == "";
    case Element(name, attrs, children) =>
      if IsVoid(name) {
        RenderOneLine(Line(depth, OpenTag(name, attrs)));
      } else if |children| > 0 {
        WrappedChildrenRender(name, attrs, children, depth);
      } else {
        RenderOneLine(Line(depth, OpenTag(name, attrs) + CloseTag(name)));
      }
  }

  /** A single line renders as its indentation, its text and a line break. */
  lemma RenderOneLine(l: Line)
    ensures Render([l]) == Indent(l.depth) + l.text + "\n"
  {
    assert [l][1..] == [];
  }

  /** The printed form of an element with children, once its children's print is known to be their layout. */
  lemma WrappedChildrenRender(name: string, attrs: seq<Attr>, children: seq<Node>, depth: nat)
    requires !IsVoid(name) && |children| > 0
    requires PrintChildren(children, depth + 1) == Render(LayoutChildren(children, depth + 1))
    ensures PrintNode(Element(name, attrs, children), depth) == Render(Layout(Element(name, attrs, children), depth))
  {
    var space := Indent(depth);
    var open, close := [Line(depth, OpenTag(name, attrs))], [Line(depth, CloseTag(name))];
    var inner := LayoutChildren(children, depth + 1);
    RenderAppend(open + inner, close);
    RenderAppend(open, inner);
    assert Render(open) == space + OpenTag(name, attrs) + "\n";
    assert Render(close) == space + CloseTag(name) + "\n";
    var p := PrintChildren(children, depth + 1);
    assert PrintNode(Element(name, attrs, children), depth)
      == space + OpenTag(name, attrs) + "\n" + p + space + CloseTag(name) + "\n";
    assert space + OpenTag(name, attrs) + "\n" + p + space + CloseTag(name) + "\n"
      == (space + OpenTag(name, attrs) + "\n") + p + (space + CloseTag(name) + "\n");
  }

  lemma {:induction false} PrintChildrenRendersLayout(children: seq<Node>, depth: nat)
    ensures PrintChildren(children, depth) == Render(LayoutChildren(children, depth))
    decreases children, 0
  {
    if |children| > 0 {
      PrintNodeRendersLayout(children[0], depth);
      PrintChildrenRendersLayout(children[1..], depth);
      RenderAppend(Layout(children[0], depth), LayoutChildren(children[1..], depth));
    }
  }

  /**
   A void element prints as its opening tag alone, on one line, whatever
   children it has; any other element's output ends with a closing tag for
   the same name, and it has both tags on one line exactly when it has no
   children.
   */
  lemma ElementShapes(name: string, attrs: seq<Attr>, children: seq<Node>, d: nat)
    ensures IsVoid(name) ==> Layout(Element(name, attrs, children), d) == [Line(d, OpenTag(name, attrs))]
    ensures var lines := Layout(Element(name, attrs, children), d);
      !IsVoid(name) ==>
        (lines[|lines| - 1].text[|lines[|lines| - 1].text| - |CloseTag(name)|..] == CloseTag(name)
         && (|lines| == 1 <==> |children| == 0))
  {
  }

  /** Printing a run of siblings prints each one in turn, in order, at the same depth. */
  lemma {:induction false} PrintChildrenAppend(a: seq<Node>, b: seq<Node>, d: nat)
    ensures PrintChildren(a + b, d) == PrintChildren(a, d) + PrintChildren(b, d)
  {
    if |a| > 0 {
      var ab := a + b;
      assert ab[0] == a[0] && ab[1..] == a[1..] + b;
      PrintChildrenAppend(a[1..], b, d);
      var head, tail, rest := PrintNode(a[0], d), PrintChildren(a[1..], d), PrintChildren(b, d);
      assert PrintChildren(ab, d) == head + PrintChildren(a[1..] + b, d);
      assert PrintChildren(a, d) == head + tail;
      ConcatAssociates(head, tail, rest);
    } else {
      assert a + b == b;
    }
  }

  lemma ConcatAssociates(x: string, y: string, z: string)
    ensures x + (y + z) == (x + y) + z
  {
  }

  /** Attributes print in their order: printing two lists one after the other is printing their concatenation. */
  lemma {:induction false} AttrsTextAppend(a: seq<Attr>, b: seq<Attr>)
    ensures AttrsText(a + b) == AttrsText(a) + AttrsText(b)
  {
    if |a| > 0 {
      assert (a + b)[0] == a[0];
      assert (a + b)[1..] == a[1..] + b;
      AttrsTextAppend(a[1..], b);
      var head := " " + a[0].name + "=\"" + a[0].value + "\"";
      assert AttrsText(a + b) == head + (AttrsText(a[1..]) + AttrsText(b));
      assert head + (AttrsText(a[1..]) + AttrsText(b)) == (head + AttrsText(a[1..])) + AttrsText(b);
    } else {
      assert a + b == b;
    }
  }

  /**
   A printed document is its doctype line followed by the root element's
   layout at depth 0: one line per node, indented by its depth.
   */
  lemma PrettyDomIsDoctypeThenRoot(doc: Document)
    ensures PrettyDom(doc) == "<!DOCTYPE " + doc.doctypeName.GetOr("") + ">\n" + Render(Layout(doc.documentElement, 0))
  {
    PrintNodeRendersLayout(doc.documentElement, 0);
  }

  /** Matching is exact: a void name with anything around it, or in upper case, is not void. */
  lemma VoidMatchIsExact()
    ensures |VoidElements| == 14
    ensures IsVoid("br") && !IsVoid("BR") && !IsVoid("brx") && !IsVoid("abbr")
  {
    VoidElementsCount();
  }

  /** The fourteen void names are distinct. */
  lemma VoidElementsCount()
    ensures |VoidElements| == 14
  {
  }

  /**
   Text is printed verbatim: a text node whose content holds a line break
   prints a second line that carries none of the node's indentation.
   */
  lemma TextLineBreakIsNotIndented()
    ensures PrintNode(Text("a\nb"), 1) == "  a\nb\n"
  {
  }
}

=== FILE: test_server.dfy ===
/**
 The request side of packages/test-utils/src/server.ts: `serveMiddleware`,
 which wraps one middleware in a fake server and builds a fresh Context for
 every request, and the `MockBuildCache` it supplies when none is given.
 */
module TestServer {
  import opened Js
  import opened Middlewares
  import MiddlewareProps

  /** `MockBuildCache.features`. */
  datatype Features = Features(errorOverlay: bool)

  /**
   `MockBuildCache`: the route files it was built with (opaque here), the
   empty `root` and `clientEntry`, and its feature flags. Its island registry
   is always empty and is left out.
   */
  datatype MockBuildCache<F> = MockBuildCache(files: seq<F>, root: string, clientEntry: string, features: Features)

  /** `new MockBuildCache(files, mode)`: the error overlay is on exactly in development mode. */
  function NewMockBuildCache<F>(files: seq<F>, mode: Mode): (c: MockBuildCache<F>)
    ensures c.features.errorOverlay <==> mode == Development
    ensures c.files == files && c.root == "" && c.clientEntry == ""
  {
    MockBuildCache(files, "", "", Features(mode == Development))
  }

  /** `getEntryAssets()`: a mock cache has no entry assets, whatever it was built with. */
  function GetEntryAssets<F>(c: MockBuildCache<F>): (assets: seq<string>)
    ensures assets == []
  {
    []
  }

  /** A static file a real build cache could serve; a mock cache never has one. */
  datatype StaticFile = StaticFile(pathname: string, size: nat)

  /** `readFile(pathname)`: resolves to `null` for every path. */
  function ReadFile<F>(c: MockBuildCache<F>, pathname: string): (file: Option<StaticFile>)
    ensures file == None
  {
    None
  }

  /** The build cache a Context carries: the mock, or one the caller supplied (opaque). */
  datatype BuildCache<F> = Mock(mock: MockBuildCache<F>) | Supplied(id: nat)

  /** The options object of `serveMiddleware`; each field may be left out or `null`. */
  datatype ServeOptions<F> = ServeOptions(
    config: Nullish<Config>,
    buildCache: Nullish<BuildCache<F>>,
    next: Nullish<Response>,
    route: Nullish<string>)

  /** `serveMiddleware(mw)` with no options at all. */
  const NoOptions: ServeOptions<nat> := ServeOptions(Undefined, Undefined, Undefined, Undefined)

  /** The configuration used when none is given. */
  const DefaultConfig: Config := Config("", Production, "")

  /** The response of the default `next`: `new Response("not found", { status: 404 })`. */
  const NotFound: Response := Response(404, "not found")

  /**
   The Context `serveMiddleware` builds for each request: the given route or
   `null`, an empty state, the given configuration or the default one, a
   fallback that answers with the given `next` or with 404 "not found", and the
   given build cache or a mock one whose mode follows the given configuration.
   */
  function ServeContext<F>(opts: ServeOptions<F>): (ctx: Context<BuildCache<F>>)
    ensures ctx.state == EmptyState
    ensures ctx.route == (if opts.route.Defined? then Some(opts.route.value) else None)
    ensures ctx.config == (if opts.config.Defined? then opts.config.value else DefaultConfig)
    ensures ctx.fallback == (if opts.next.Defined? then opts.next.value else NotFound)
    ensures opts.buildCache.Defined? ==> ctx.buildCache == opts.buildCache.value
    ensures !opts.buildCache.Defined? ==>
      ctx.buildCache.Mock? && ctx.buildCache.mock.files == []
      && (ctx.buildCache.mock.features.errorOverlay <==> ctx.config.mode == Development)
  {
    var fallback := Coalesce(opts.next, NotFound);
    var config := Coalesce(opts.config, DefaultConfig);
    var mode := CoalesceMap(opts.config, (c: Config) => c.mode, Production);
    var buildCache := Coalesce(opts.buildCache, Mock(NewMockBuildCache([], mode)));
    var route := if opts.route.Defined? then Some(opts.route.value) else None;
    Context(route, EmptyState, config, fallback, buildCache)
  }

  /**
   One request to the server `serveMiddleware(mw, opts)` returns: the
   middleware's own outcome on the Context built for that request, passed
   through unchanged.
   */
  function Serve<F>(mw: Context<BuildCache<F>> -> Outcome, opts: ServeOptions<F>): Outcome {
    mw(ServeContext(opts))
  }

  /** The middleware that runs a chain of entries on its Context: `ctx => runMiddlewares(es, ctx)`. */
  function ChainMiddleware<F>(es: seq<Entry>): Context<BuildCache<F>> -> Outcome {
    (ctx: Context<BuildCache<F>>) => RunMiddlewares(es, ctx).outcome
  }

  /**
   Serving a chain answers exactly as running it from an empty state with the
   given `next` (or the 404 default) as the fallback does, error or response.
   */
  lemma ServedChainAnswersAsRun<F>(es: seq<Entry>, opts: ServeOptions<F>)
    ensures Serve(ChainMiddleware(es), opts)
      == Run(es, 0, EmptyState, if opts.next.Defined? then opts.next.value else NotFound).outcome
  {
  }

  /**
   Served with no `next` option, a chain that only ever delegates (the empty
   chain included) falls through to the default 404 "not found" response.
   */
  lemma ServedChainFallsThroughToNotFound<F>(es: seq<Entry>, opts: ServeOptions<F>)
    requires !opts.next.Defined?
    requires forall j :: 0 <= j < |es| ==> CallsNext(es[j].handler)
    ensures Serve(ChainMiddleware(es), opts) == Resp(NotFound)
  {
    MiddlewareProps.ExhaustedChainYieldsFallback(es, 0, EmptyState, NotFound);
  }

  /** With no options the Context has no route, the production default configuration and no error overlay. */
  lemma DefaultServeContext()
    ensures var ctx := ServeContext(NoOptions);
      && ctx.route == None && ctx.config == DefaultConfig && ctx.fallback == NotFound
      && ctx.buildCache.Mock? && !ctx.buildCache.mock.features.errorOverlay
  {
  }
}
